=== FILE: README.md ===
# snapurl in Dafny

snapurl reads a file of URLs, downloads each one with bounded concurrency and
writes every body it gets to disk, keeping counts of URLs seen, successes,
failures and summed download time. This project models the two pieces of
sequential logic in it:

- **The URL line filter** (`CSVReader.ReadLines`). The first line of the file
  is a header and is always dropped. Every later line is trimmed of
  surrounding whitespace the way Go's `strings.TrimSpace` does it. Blank lines
  are dropped and the rest are emitted in file order. Failing to open the
  file gives an error and no items. A read error part-way gives the items of
  the lines read so far and then an error.
- **The pipeline's accounting and admission gate** (`main`, `downloadURLs`,
  `persistContent`). The goroutines, channels and semaphore become a
  sequential state machine. The URL loop receives a URL, counts it in `total`
  and spawns its goroutine. That goroutine waits for one of the `capacity`
  slots, downloads, and then either counts a failure or adds its elapsed time
  and sends the content. Its slot is released only after that send has
  completed. The persister counts a success for each content it receives,
  before it tries to write it. Each event changes the counters in the same
  way whatever the interleaving, so every interleaving is a sequence of
  these events. Events are atomic in the model, and its states are the
  moments between events. In the program, three pairs of steps that the
  model takes as one event are separate:
  - the persister's receive and its success increment;
  - that receive, which completes a successful goroutine's send, and the
    goroutine's slot release;
  - a failed download's failure increment and its slot release.

  There is one persister, so `success` lags by at most one. Up to `capacity`
  goroutines can be between a counted failure or a completed send and their
  slot release, so the semaphore can hold up to `capacity` tokens while the
  model counts fewer held slots. The content channel is closed after the
  last goroutine's `wg.Done()`, which runs before that goroutine's release
  and possibly before the persister's last increment. The accounting is
  therefore stated at event boundaries. The balance
  `success + failed == total` is stated for the point where the persister
  has finished, which is where `main` reads the counters.

Modules:

- `Whitespace` (whitespace.dfy): `unicode.IsSpace` and `strings.TrimSpace` on runes.
- `CsvReader` (csv_reader.dfy): the line filter and the scanning loop.
- `Config` (config.dfy): flag defaults and the flag checks.
- `Pipeline` (pipeline.dfy): states, events, the consistency invariant, drain and gate properties.
- `Outcomes` (outcomes.dfy): how `success` and `failed` split the input by what the downloader reports.
- `Scheduler` (scheduler.dfy): one complete schedule, run until no goroutine can move.
- `Program` (program.dfy): `main` from flags to report.
- `Wrappers` (wrappers.dfy): `Option` and `Result`.

A gate capacity of 0 passes the flag check, because only negative values are
rejected, even though the error message asks for a value greater than zero.
With 0 slots the semaphore is an unbuffered channel. Its only receives run
after a send has completed, so no goroutine ever gets a slot.
`Pipeline.ZeroCapacityStalls` proves the consequence: nothing is downloaded,
and a non-empty input never drains. The persister then never finishes, so
`main` waits for an interrupt signal and never reaches its normal report.
`Program.RunProgram` gives this outcome as `Stalled`, carrying the number of
URLs blocked at the gate. The model keeps this behaviour as the code has it.

## Model

| member | source | states |
|---|---|---|
| Whitespace.TrimSpace | pkg/csv/reader.go:26 | the trimmed line has no whitespace rune at either end |
| Whitespace.TrimSpaceShape | pkg/csv/reader.go:26 | the trimmed line is the middle of the line after a whitespace prefix and a whitespace suffix are cut away; it is empty exactly when the line is all whitespace |
| Whitespace.TrimSpaceUnique | pkg/csv/reader.go:26 | whitespace + a trimmed middle + whitespace always trims to that middle, so trimming is fully determined by its description |
| Whitespace.TrimSpaceIdempotent | pkg/csv/reader.go:26 | trimming an already trimmed line changes nothing |
| Whitespace.TrimLeftSpec | pkg/csv/reader.go:26 | the leading pass keeps a suffix of the line and removes only whitespace, all of the leading whitespace |
| Whitespace.TrimRightSpec | pkg/csv/reader.go:26 | the trailing pass keeps a prefix and removes only whitespace, all of the trailing whitespace |
| CsvReader.ReadLines | pkg/csv/reader.go:13-37 | an unopenable file gives an open error and no items; otherwise the items are exactly those of the lines scanned, with the header dropped, the rest trimmed and blanks dropped; the error is returned if and only if the scanner stopped on one, after the items already sent |
| CsvReader.DataLines | pkg/csv/reader.go:20-22 | the first scanned line is removed and nothing else; an empty file has no data lines |
| CsvReader.UrlItemsCharacterised | pkg/csv/reader.go:25-30 | a sequence is the output if and only if some increasing choice of line positions gives each item as the trimmed line at its position, with no empty item, and picks every non-blank line: the output is the ordered subsequence of trimmed non-blank lines |
| CsvReader.NonEmptySelects | pkg/csv/reader.go:25-30 | the filter picks exactly the non-empty trimmed lines, each once, in file order |
| CsvReader.SelectsUnique | pkg/csv/reader.go:25-30 | any ordered selection of all non-empty trimmed lines equals the filter's output |
| CsvReader.UrlItemsCount | pkg/csv/reader.go:25-30 | there are as many items as there are non-blank data lines |
| CsvReader.EmittedAreTrimmedDataLines | pkg/csv/reader.go:21-29 | every item is non-empty, has no surrounding whitespace, and is the trimmed form of a line after the header |
| CsvReader.HeaderIgnored | pkg/csv/reader.go:21-22 | the items do not depend on the first line, even when it looks like a URL |
| CsvReader.HeaderOnlyEmitsNothing | pkg/csv/reader_test.go:9-33 | a file with only a header, or an empty file, yields no items |
| CsvReader.EmittedPrefix | pkg/csv/reader.go:25-34 | a read cut short has emitted the start of what the whole file would have emitted |
| CsvReader.UrlItemsAppend | pkg/csv/reader.go:25-30 | the items of two runs of lines are those of the first followed by those of the second |
| Config.Validate | internal/cmd/main.go:33-40 | the flags are accepted if and only if the path is non-empty and the concurrency is not negative, so 0 is accepted; an empty path is reported first; when accepted, the capacity is the flag's value |
| Config.DefaultsOnCommandLine | internal/cmd/main.go:27-40 | a path with no concurrency flag starts a run with 50 slots; no path is always rejected |
| Pipeline.NextConsistent | internal/cmd/main.go:156-194 | every event, taken as one atomic step, keeps the gate within capacity, keeps the handed-over URLs a prefix of the input, and keeps total = success + failed + goroutines still alive |
| Pipeline.RunConsistent | internal/cmd/main.go:156-194 | every state a run reaches between events satisfies that accounting |
| Pipeline.GateBound | internal/cmd/main.go:157-168 | in every reachable state the slots held never exceed the capacity, and success + failed <= total |
| Pipeline.CapacityFixed | internal/cmd/main.go:157 | no event changes the gate's capacity |
| Pipeline.DrainedBalances | internal/cmd/main.go:110-146 | once the URL channel is drained, every goroutine has finished and the persister has counted its last content (where `main` reads the counters), total equals the input length and success + failed == total |
| Pipeline.ZeroCapacityStalls | internal/cmd/main.go:157-168 | with capacity 0 no slot is ever taken, nothing succeeds or fails, and a non-empty input never drains |
| Pipeline.CountersCountEvents | internal/cmd/main.go:159-193 | over any run: total counts the URLs received, failed the failed downloads, success the contents handed to the persister, and the duration sums the elapsed times of successful downloads only |
| Pipeline.NextStats | internal/cmd/main.go:160-189 | each event moves only its own counter, by one (or by its elapsed time) |
| Pipeline.ReceiveSpawns | internal/cmd/main.go:159-168 | receiving a URL adds one to total, spawns a goroutine that waits for a slot, and does not change the slots held |
| Pipeline.FailureForwardsNothing | internal/cmd/main.go:171-176 | a failed download adds one to failed, adds no time, sends no content and releases its slot |
| Pipeline.SuccessForwardsOnce | internal/cmd/main.go:178-182 | a successful download adds its elapsed time, leaves failed alone, puts its content on the channel exactly once and keeps its slot |
| Pipeline.HandoffCountsSuccess | internal/cmd/main.go:188-193 | the persister adds one to success on receipt, whether the write then works or not, and never takes it back; the model also counts failed writes in `persistErrors`, a counter the program does not have (it only logs them), so that success == stored + persistErrors can be stated |
| Outcomes.AccountedStep | internal/cmd/main.go:166-189 | every event that ends a download the way the downloader reports keeps each handed-over URL either in a goroutine or among the finished ones, with `failed` counting the failed downloads and `success` plus the contents being sent counting the successful ones |
| Outcomes.SplitCount | internal/cmd/main.go:171-189 | any split of the input into failed and successful downloads puts exactly as many URLs on the failed side as the input has failing downloads |
| Outcomes.DrainedOutcomes | internal/cmd/main.go:171-189 | once drained, `failed` is the number of input URLs whose download fails and `success` the number of the others |
| Outcomes.OutcomeExtremes | internal/cmd/main.go:171-189 | at any event boundary, if every download succeeds nothing has failed, and if none succeeds nothing has been handed to the persister |
| Scheduler.ChooseEvent | internal/cmd/main.go:159-193 | the event chosen is one that can happen now and that ends a download the way the downloader reported; none is chosen only when no goroutine can move |
| Scheduler.StepFacts | internal/cmd/main.go:159-193 | each event moves a goroutine on and keeps every live goroutine's URL from the input |
| Scheduler.Drive | internal/cmd/main.go:71-93 | the schedule stops only when the URL channel is drained, no download is running and no content is being sent, with no goroutine left waiting when the gate has a slot; every download in its trace ends as the downloader reported; with a slot, `failed` is the number of input URLs whose download fails and `success` the number of the others |
| Scheduler.RunPipeline | internal/cmd/main.go:71-121 | a complete run over the input is a valid event trace whose downloads end as the downloader reported; total ends equal to the input length; with at least one slot the pipeline drains, `failed` equals the number of input URLs whose download fails and `success` the number of the others (so mixed outcomes are split exactly, and all-success or all-failure inputs give all successes or all failures); with 0 slots every URL stays waiting |
| Program.RunProgram | internal/cmd/main.go:22-154 | bad flags or a reader error end the run without a report; with 0 slots and at least one item the run stalls with every item blocked at the gate and no report; otherwise, exactly then, the report counts every item of the file, `failed` is the number of items whose download fails and `success` the number of the others |

## Left out

- Opening the file, `bufio.Scanner` tokenisation, its 64 KiB line limit and `\r` stripping: the file is given as the lines the scanner returns and whether it stopped on an error.
- Invalid UTF-8: strings are sequences of Unicode scalar values, so Go's treatment of invalid bytes as U+FFFD is not modelled.
- The HTTP downloader (`pkg/downloader/downloader.go`) and the clock: each download's result and elapsed time are a parameter (`fetch`) or an event argument. Because `fetch` and `write` are functions, every copy of a repeated URL gets the same outcome and elapsed time, and every copy of a repeated content the same write outcome. The program downloads and writes each copy separately and can get different results.
- The file persister (`pkg/persister/persister.go`): the date folders, random file names and file writes. Whether a write works is a parameter (`write`) or an event argument.
- The `internal/ports` interfaces: they declare the downloader and persister signatures and have no behaviour.
- Goroutines, channels, `sync.WaitGroup` and the mutex: these are replaced by the sequential event model described above.
- The interrupt handling, the shutdown timeouts and the race on `ctx`/`cancel` at internal/cmd/main.go:113-141: they depend on timing.
- The final percentages and average at internal/cmd/main.go:143-146: they are floating point, and with `total == 0` they are NaN. The counters are kept as naturals.
- The counters `total`, `success` and `failed` are `float64` in the program (internal/cmd/main.go:19): they are kept as naturals, which agree with the floats below 2^53.
- The log lines at internal/cmd/main.go:42-43, 172 and 192: they have no effect on the counters or the files written.
- `flag.Parse` exits the process on an unknown flag or a non-numeric `--maxDownloadConcurrency`: the model starts from flags that parsed.
- Summed duration as `float64`: milliseconds are added as unbounded naturals, so float rounding beyond 2^53 is not modelled.
- The integer width of `--maxDownloadConcurrency`: Go's `flag` package rejects values that do not fit in `int`, and the model takes any integer.
- Program.RunProgram: a reader error ends the run with no report, and a stalled run is reported as `Stalled` rather than as the counters the program prints after an interrupt, since the interrupt path is left out. In the program, the items already sent are still being downloaded when `log.Fatalf` ends the process, and that partial work is not modelled.
- Scheduler.RunPipeline: it runs one fixed schedule. Other interleavings are covered by the trace lemmas of `Pipeline`, not by this method.

=== FILE: config.dfy ===
/**
 The command-line flags of the program and the checks `main` makes on them
 before any stage starts: a file path must be given, and the download
 concurrency must not be negative (zero is let through).
 */
module Config {
  import opened Wrappers

  /** `--filePath` has no default; an absent flag reads as the empty string. */
  const DefaultFilePath: string := ""

  /** `--maxDownloadConcurrency` when the flag is not given. */
  const DefaultMaxDownloadConcurrency: int := 50

  datatype Flags = Flags(filePath: string, maxDownloadConcurrency: int)

  /** Why `main` stops with a fatal log line before starting. */
  datatype FlagError = MissingFilePath | NegativeConcurrency

  /** The flag values after parsing: a flag that is not given takes its default. */
  function ParseFlags(filePath: Option<string>, maxDownloadConcurrency: Option<int>): (f: Flags)
    ensures filePath.Some? ==> f.filePath == filePath.value
    ensures filePath.None? ==> f.filePath == DefaultFilePath
    ensures maxDownloadConcurrency.Some? ==> f.maxDownloadConcurrency == maxDownloadConcurrency.value
    ensures maxDownloadConcurrency.None? ==> f.maxDownloadConcurrency == DefaultMaxDownloadConcurrency
  {
    Flags(
      if filePath.Some? then filePath.value else DefaultFilePath,
      if maxDownloadConcurrency.Some? then maxDownloadConcurrency.value else DefaultMaxDownloadConcurrency)
  }

  /**
   The flag checks, in the order `main` makes them. On success the result is
   the admission gate's capacity.
   */
  function Validate(flags: Flags): (r: Result<nat, FlagError>)
    ensures r.Ok? <==> flags.filePath != [] && flags.maxDownloadConcurrency >= 0
    ensures r.Ok? ==> r.value == flags.maxDownloadConcurrency
    ensures flags.filePath == [] ==> r == Err(MissingFilePath)
    ensures flags.filePath != [] && flags.maxDownloadConcurrency < 0 ==> r == Err(NegativeConcurrency)
  {
    if flags.filePath == [] then Err(MissingFilePath)
    else if flags.maxDownloadConcurrency < 0 then Err(NegativeConcurrency)
    else Ok(flags.maxDownloadConcurrency)
  }

  /**
   With only a file path given the run starts with a gate of 50 slots;
   without a file path it never starts, whatever the concurrency.
   */
  lemma DefaultsOnCommandLine(path: string, conc: Option<int>)
    ensures path != [] ==> Validate(ParseFlags(Some(path), None)) == Ok(50)
    ensures Validate(ParseFlags(None, conc)) == Err(MissingFilePath)
  {
  }
}

=== FILE: csv_reader.dfy ===
/**
 `CSVReader.ReadLines`: the lines of the input file become URL items. The
 first (header) line is discarded, every later line is trimmed, blank lines
 are dropped and the rest are emitted in file order.

 The file is given as what `bufio.Scanner` would hand out: the sequence of
 lines it returns before stopping, and whether it stopped on a read error.
 */
module CsvReader {
  import opened Wrappers
  import opened Whitespace

  /** The input file as the reader sees it. */
  datatype File =
    | Unopenable                                 // os.Open fails
    | Opened(lines: seq<string>, scanFails: bool) // lines scanned, then EOF or a read error

  datatype ReadError = OpenFailed | ScanFailed

  /** A line that trims to nothing; the reader drops it. */
  predicate Blank(line: string)
  {
    |TrimSpace(line)| == 0
  }

  /** The lines after the header; an empty file has no header and no data. */
  function DataLines(lines: seq<string>): (data: seq<string>)
    ensures |lines| > 0 ==> lines == [lines[0]] + data
    ensures |lines| == 0 ==> data == []
  {
    if |lines| == 0 then [] else lines[1..]
  }

  /** Every line trimmed, position by position. */
  function TrimAll(data: seq<string>): (ts: seq<string>)
    ensures |ts| == |data|
    ensures forall i :: 0 <= i < |data| ==> ts[i] == TrimSpace(data[i])
  {
    seq(|data|, i requires 0 <= i < |data| => TrimSpace(data[i]))
  }

  /** The non-empty strings of `ts`, in order. */
  function NonEmpty(ts: seq<string>): seq<string>
  {
    if |ts| == 0 then []
    else (if |ts[0]| > 0 then [ts[0]] else []) + NonEmpty(ts[1..])
  }

  /** The URL items a run of data lines yields: each non-blank line, trimmed, in order. */
  function UrlItems(data: seq<string>): seq<string>
  {
    NonEmpty(TrimAll(data))
  }

  /** The URL items a whole file's lines yield. */
  function Emitted(lines: seq<string>): seq<string>
  {
    UrlItems(DataLines(lines))
  }

  /**
   The scanning loop of ReadLines: one Scan for the header, then one Scan per
   data line, sending each non-blank trimmed line; after the loop the
   scanner's error, if any, is returned.
   */
  method ReadLines(f: File) returns (emitted: seq<string>, err: Option<ReadError>)
    ensures f.Unopenable? ==> emitted == [] && err == Some(OpenFailed)
    ensures f.Opened? ==> emitted == Emitted(f.lines)
    ensures f.Opened? ==> (err == Some(ScanFailed) <==> f.scanFails)
    ensures f.Opened? ==> (err == None <==> !f.scanFails)
  {
    if f.Unopenable? {
      return [], Some(OpenFailed);
    }
    var lines := f.lines;
    var next: nat := 0;
    // the first Scan consumes the header
    if next < |lines| {
      next := next + 1;
    }
    emitted := [];
    while next < |lines|
      invariant next <= |lines|
      invariant |lines| > 0 ==> next >= 1
      invariant emitted == Emitted(lines[..next])
    {
      var line := TrimSpace(lines[next]);
      UrlItemsSnoc(DataLines(lines[..next]), lines[next]);
      assert DataLines(lines[..next + 1]) == DataLines(lines[..next]) + [lines[next]];
      if |line| > 0 {
        emitted := emitted + [line];
      }
      next := next + 1;
    }
    assert lines[..next] == lines;
    err := if f.scanFails then Some(ScanFailed) else None;
  }

  /** Keeping the non-empty strings distributes over concatenation. */
  lemma {:induction false} NonEmptyAppend(a: seq<string>, b: seq<string>)
    ensures NonEmpty(a + b) == NonEmpty(a) + NonEmpty(b)
  {
    if |a| > 0 {
      assert (a + b)[1..] == a[1..] + b;
      NonEmptyAppend(a[1..], b);
    } else {
      assert a + b == b;
    }
  }

  /** The URL items of two runs of lines are those of each, one after the other. */
  lemma UrlItemsAppend(a: seq<string>, b: seq<string>)
    ensures UrlItems(a + b) == UrlItems(a) + UrlItems(b)
  {
    assert TrimAll(a + b) == TrimAll(a) + TrimAll(b);
    NonEmptyAppend(TrimAll(a), TrimAll(b));
  }

  /** Scanning one more line adds at most that line, trimmed. */
  lemma UrlItemsSnoc(data: seq<string>, line: string)
    ensures UrlItems(data + [line])
         == UrlItems(data) + (if Blank(line) then [] else [TrimSpace(line)])
  {
    UrlItemsAppend(data, [line]);
    var t := TrimSpace(line);
    assert TrimAll([line]) == [t];
    assert NonEmpty([t]) == (if |t| > 0 then [t] else []) + NonEmpty([]);
  }

  /** Item `k` of `out` is the string at position `idx[k]` of `ts`. */
  ghost predicate PicksFrom(ts: seq<string>, out: seq<string>, idx: seq<nat>)
  {
    && |idx| == |out|
    && forall k :: 0 <= k < |idx| ==> idx[k] < |ts| && out[k] == ts[idx[k]]
  }

  ghost predicate AllNonEmpty(out: seq<string>)
  {
    forall k :: 0 <= k < |out| ==> |out[k]| > 0
  }

  ghost predicate Increasing(idx: seq<nat>)
  {
    forall j, k :: 0 <= j < k < |idx| ==> idx[j] < idx[k]
  }

  /** Every position of `ts` holding a non-empty string is picked. */
  ghost predicate Covers(ts: seq<string>, idx: seq<nat>)
  {
    forall i :: 0 <= i < |ts| && |ts[i]| > 0 ==> i in idx
  }

  /**
   `idx` lists, in increasing order, the positions of `ts` that `out` was
   taken from: each item is the string at its position, and the positions
   picked are exactly those holding a non-empty string.
   */
  ghost predicate Selects(ts: seq<string>, out: seq<string>, idx: seq<nat>)
  {
    PicksFrom(ts, out, idx) && AllNonEmpty(out) && Increasing(idx) && Covers(ts, idx)
  }

  /** Every index moved one place further on. */
  function Shift(idx: seq<nat>): (r: seq<nat>)
    ensures |r| == |idx|
    ensures forall k :: 0 <= k < |idx| ==> r[k] == idx[k] + 1
  {
    seq(|idx|, k requires 0 <= k < |idx| => idx[k] + 1)
  }

  /** Every index moved one place back; none of them may be the first. */
  function Unshift(idx: seq<nat>): (r: seq<nat>)
    requires forall k :: 0 <= k < |idx| ==> idx[k] >= 1
    ensures |r| == |idx|
    ensures forall k :: 0 <= k < |idx| ==> r[k] == idx[k] - 1
  {
    seq(|idx|, k requires 0 <= k < |idx| => idx[k] - 1)
  }

  /** The positions of the non-empty strings of `ts`, in increasing order. */
  function Positions(ts: seq<string>): seq<nat>
  {
    if |ts| == 0 then []
    else (if |ts[0]| == 0 then [] else [0]) + Shift(Positions(ts[1..]))
  }

  /** Selecting from a string put before `ts[1..]`: an empty one adds nothing. */
  lemma SelectsConsEmpty(ts: seq<string>, out: seq<string>, idx: seq<nat>)
    requires |ts| > 0 && |ts[0]| == 0
    requires Selects(ts[1..], out, idx)
    ensures Selects(ts, out, Shift(idx))
  {
    var rest := ts[1..];
    var idx' := Shift(idx);
    forall i | 0 <= i < |ts| && |ts[i]| > 0 ensures i in idx' {
      assert rest[i - 1] == ts[i];
      var k :| 0 <= k < |idx| && idx[k] == i - 1;
      assert idx'[k] == i;
    }
  }

  /** Selecting from a string put before `ts[1..]`: a non-empty one comes first. */
  lemma SelectsConsKept(ts: seq<string>, out: seq<string>, idx: seq<nat>)
    requires |ts| > 0 && |ts[0]| > 0
    requires Selects(ts[1..], out, idx)
    ensures Selects(ts, [ts[0]] + out, [0] + Shift(idx))
  {
    ConsKeptPicks(ts, out, idx);
    ConsKeptNonEmpty(ts[0], out);
    ConsKeptIncreasing(idx);
    ConsKeptCovers(ts, idx);
  }

  lemma ConsKeptPicks(ts: seq<string>, out: seq<string>, idx: seq<nat>)
    requires |ts| > 0 && PicksFrom(ts[1..], out, idx)
    ensures PicksFrom(ts, [ts[0]] + out, [0] + Shift(idx))
  {
    var out', idx' := [ts[0]] + out, [0] + Shift(idx);
    forall k | 0 < k < |idx'| ensures idx'[k] < |ts| && out'[k] == ts[idx'[k]] {
      assert idx'[k] == idx[k - 1] + 1 && out'[k] == out[k - 1];
    }
  }

  lemma ConsKeptNonEmpty(t: string, out: seq<string>)
    requires |t| > 0 && AllNonEmpty(out)
    ensures AllNonEmpty([t] + out)
  {
    var out' := [t] + out;
    forall k | 0 < k < |out'| ensures |out'[k]| > 0 {
      assert out'[k] == out[k - 1];
    }
  }

  lemma ConsKeptIncreasing(idx: seq<nat>)
    requires Increasing(idx)
    ensures Increasing([0] + Shift(idx))
  {
    var idx' := [0] + Shift(idx);
    forall j, k | 0 <= j < k < |idx'| ensures idx'[j] < idx'[k] {
      assert idx'[k] == idx[k - 1] + 1;
      if j > 0 {
        assert idx'[j] == idx[j - 1] + 1;
      }
    }
  }

  lemma ConsKeptCovers(ts: seq<string>, idx: seq<nat>)
    requires |ts| > 0 && Covers(ts[1..], idx)
    ensures Covers(ts, [0] + Shift(idx))
  {
    var idx' := [0] + Shift(idx);
    forall i | 0 < i < |ts| && |ts[i]| > 0 ensures i in idx' {
      assert ts[1..][i - 1] == ts[i];
      var k :| 0 <= k < |idx| && idx[k] == i - 1;
      assert idx'[k + 1] == i;
    }
  }

  /** NonEmpty keeps exactly the non-empty strings, in their order. */
  lemma {:induction false} NonEmptySelects(ts: seq<string>)
    ensures Selects(ts, NonEmpty(ts), Positions(ts))
  {
    if |ts| > 0 {
      NonEmptySelects(ts[1..]);
      if |ts[0]| == 0 {
        SelectsConsEmpty(ts, NonEmpty(ts[1..]), Positions(ts[1..]));
        assert Positions(ts) == [] + Shift(Positions(ts[1..]));
        assert NonEmpty(ts) == [] + NonEmpty(ts[1..]);
      } else {
        SelectsConsKept(ts, NonEmpty(ts[1..]), Positions(ts[1..]));
      }
    }
  }

  /** Undoing an empty first string: every pick lies in the rest. */
  lemma SelectsTailEmpty(ts: seq<string>, out: seq<string>, idx: seq<nat>)
    requires |ts| > 0 && |ts[0]| == 0
    requires Selects(ts, out, idx)
    ensures forall k :: 0 <= k < |idx| ==> idx[k] >= 1
    ensures Selects(ts[1..], out, Unshift(idx))
  {
    var rest := ts[1..];
    var idx' := Unshift(idx);
    forall k | 0 <= k < |idx'| ensures idx'[k] < |rest| && out[k] == rest[idx'[k]] {
      assert rest[idx'[k]] == ts[idx[k]];
    }
    forall i | 0 <= i < |rest| && |rest[i]| > 0 ensures i in idx' {
      assert ts[i + 1] == rest[i];
      var k :| 0 <= k < |idx| && idx[k] == i + 1;
      assert idx'[k] == i;
    }
  }

  /** Undoing a non-empty first string: it is the first pick, the rest pick from the rest. */
  lemma SelectsTailKept(ts: seq<string>, out: seq<string>, idx: seq<nat>)
    requires |ts| > 0 && |ts[0]| > 0
    requires Selects(ts, out, idx)
    ensures |idx| > 0 && idx[0] == 0 && out[0] == ts[0]
    ensures forall k :: 1 <= k < |idx| ==> idx[k] >= 1
    ensures Selects(ts[1..], out[1..], Unshift(idx[1..]))
  {
    TailKeptHead(ts, out, idx);
    TailKeptPicks(ts, out, idx);
    TailKeptIncreasing(ts, out, idx);
    TailKeptCovers(ts, out, idx);
  }

  lemma TailKeptHead(ts: seq<string>, out: seq<string>, idx: seq<nat>)
    requires |ts| > 0 && |ts[0]| > 0
    requires Selects(ts, out, idx)
    ensures |idx| > 0 && idx[0] == 0 && out[0] == ts[0]
    ensures forall k :: 1 <= k < |idx| ==> idx[k] >= 1
  {
    assert 0 in idx;
    forall k | 1 <= k < |idx| ensures idx[k] >= 1 {
      assert idx[0] < idx[k];
    }
  }

  lemma TailKeptPicks(ts: seq<string>, out: seq<string>, idx: seq<nat>)
    requires PicksFrom(ts, out, idx) && AllNonEmpty(out)
    requires |ts| > 0 && |idx| > 0 && idx[0] == 0 && out[0] == ts[0]
    requires forall k :: 1 <= k < |idx| ==> idx[k] >= 1
    ensures PicksFrom(ts[1..], out[1..], Unshift(idx[1..])) && AllNonEmpty(out[1..])
  {
    var rest, idx', out' := ts[1..], Unshift(idx[1..]), out[1..];
    forall k | 0 <= k < |idx'| ensures idx'[k] < |rest| && out'[k] == rest[idx'[k]] {
      assert rest[idx'[k]] == ts[idx[k + 1]];
    }
  }

  lemma TailKeptIncreasing(ts: seq<string>, out: seq<string>, idx: seq<nat>)
    requires |idx| > 0 && forall k :: 1 <= k < |idx| ==> idx[k] >= 1
    requires Increasing(idx)
    ensures Increasing(Unshift(idx[1..]))
  {
    var idx' := Unshift(idx[1..]);
    forall j, k | 0 <= j < k < |idx'| ensures idx'[j] < idx'[k] {
      assert idx[j + 1] < idx[k + 1];
    }
  }

  lemma TailKeptCovers(ts: seq<string>, out: seq<string>, idx: seq<nat>)
    requires |ts| > 0 && |idx| > 0 && idx[0] == 0
    requires forall k :: 1 <= k < |idx| ==> idx[k] >= 1
    requires Covers(ts, idx)
    ensures Covers(ts[1..], Unshift(idx[1..]))
  {
    var rest, idx' := ts[1..], Unshift(idx[1..]);
    forall i | 0 <= i < |rest| && |rest[i]| > 0 ensures i in idx' {
      assert ts[i + 1] == rest[i];
      var k :| 0 <= k < |idx| && idx[k] == i + 1;
      assert idx'[k - 1] == i;
    }
  }

  /** Only NonEmpty meets that description: a selection pins down the output. */
  lemma {:induction false} SelectsUnique(ts: seq<string>, out: seq<string>, idx: seq<nat>)
    requires Selects(ts, out, idx)
    ensures out == NonEmpty(ts)
  {
    if |ts| == 0 {
    } else if |ts[0]| == 0 {
      SelectsTailEmpty(ts, out, idx);
      SelectsUnique(ts[1..], out, Unshift(idx));
    } else {
      SelectsTailKept(ts, out, idx);
      SelectsUnique(ts[1..], out[1..], Unshift(idx[1..]));
      assert out == [out[0]] + out[1..];
    }
  }

  /** The positions an index sequence lists. */
  function Elems(idx: seq<nat>): set<nat>
  {
    set k | k in idx
  }

  /** An increasing index sequence lists each of its positions once. */
  lemma {:induction false} IncreasingCard(idx: seq<nat>)
    requires Increasing(idx)
    ensures |Elems(idx)| == |idx|
  {
    if |idx| > 0 {
      var tail := idx[1..];
      assert Increasing(tail) by {
        forall j, k | 0 <= j < k < |tail| ensures tail[j] < tail[k] {
          assert tail[j] == idx[j + 1] && tail[k] == idx[k + 1];
        }
      }
      IncreasingCard(tail);
      assert idx[0] !in Elems(tail) by {
        forall k | 0 <= k < |tail| ensures tail[k] != idx[0] {
          assert tail[k] == idx[k + 1];
        }
      }
      assert Elems(idx) == Elems(tail) + {idx[0]} by {
        assert idx == [idx[0]] + tail;
      }
    }
  }

  /**
   UrlItems is exactly the filter of the trimmed lines: a candidate output
   equals it if and only if some increasing choice of line positions picks
   every non-blank line, trimmed, and nothing else.
   */
  lemma UrlItemsCharacterised(data: seq<string>, out: seq<string>)
    ensures out == UrlItems(data) <==> exists idx :: Selects(TrimAll(data), out, idx)
  {
    var ts := TrimAll(data);
    NonEmptySelects(ts);
    if exists idx :: Selects(ts, out, idx) {
      var idx :| Selects(ts, out, idx);
      SelectsUnique(ts, out, idx);
    }
  }

  /**
   Each non-blank data line is emitted exactly once: there are as many URL
   items as there are non-blank lines.
   */
  lemma UrlItemsCount(data: seq<string>)
    ensures |UrlItems(data)| == |NonBlankLines(data)|
  {
    var ts := TrimAll(data);
    var idx := Positions(ts);
    NonEmptySelects(ts);
    IncreasingCard(idx);
    PickedAreNonBlank(data, idx);
  }

  /** The positions of the non-blank lines of `data`. */
  function NonBlankLines(data: seq<string>): set<nat>
  {
    set i | 0 <= i < |data| && !Blank(data[i])
  }

  /** A selection from the trimmed lines picks exactly the non-blank positions. */
  lemma PickedAreNonBlank(data: seq<string>, idx: seq<nat>)
    requires Selects(TrimAll(data), UrlItems(data), idx)
    ensures Elems(idx) == NonBlankLines(data)
  {
    var ts := TrimAll(data);
    forall i | i in Elems(idx) ensures i in NonBlankLines(data) {
      var k :| 0 <= k < |idx| && idx[k] == i;
      assert |ts[i]| > 0 by { assert UrlItems(data)[k] == ts[i]; }
    }
    forall i | i in NonBlankLines(data) ensures i in Elems(idx) {
      assert ts[i] == TrimSpace(data[i]);
    }
  }

  /**
   Every URL item is a non-empty data line with its surrounding whitespace
   removed; the header line (position 0) is never the source of one.
   */
  lemma EmittedAreTrimmedDataLines(lines: seq<string>)
    ensures forall k :: 0 <= k < |Emitted(lines)| ==>
      && |Emitted(lines)[k]| > 0
      && Trimmed(Emitted(lines)[k])
      && exists i :: 1 <= i < |lines| && Emitted(lines)[k] == TrimSpace(lines[i])
  {
    var data := DataLines(lines);
    var ts := TrimAll(data);
    var idx := Positions(ts);
    NonEmptySelects(ts);
    forall k | 0 <= k < |Emitted(lines)|
      ensures exists i :: 1 <= i < |lines| && Emitted(lines)[k] == TrimSpace(lines[i])
    {
      var j := idx[k];
      assert Emitted(lines)[k] == TrimSpace(data[j]);
      assert data[j] == lines[j + 1];
    }
  }

  /**
   The header line is discarded whatever it holds, even a URL: the items of
   a file depend only on the lines after the first.
   */
  lemma HeaderIgnored(header: string, other: string, rest: seq<string>)
    ensures Emitted([header] + rest) == Emitted([other] + rest) == UrlItems(rest)
  {
    assert ([header] + rest)[1..] == rest == ([other] + rest)[1..];
  }

  /** A file holding only a header, or nothing, yields no URL items. */
  lemma HeaderOnlyEmitsNothing(lines: seq<string>)
    requires |lines| <= 1
    ensures Emitted(lines) == []
  {
  }

  /**
   A read cut short after some lines has emitted exactly the items of those
   lines, and they are the start of what the whole file would have emitted.
   */
  lemma EmittedPrefix(read: seq<string>, unread: seq<string>)
    ensures Emitted(read) <= Emitted(read + unread)
  {
    if |read| > 0 {
      assert DataLines(read + unread) == DataLines(read) + unread;
      UrlItemsAppend(DataLines(read), unread);
    } else {
      assert read + unread == unread;
    }
  }
}

=== FILE: outcomes.dfy ===
/**
 How the counters relate to what the downloader reports for each URL. Every
 URL handed over is, at any event boundary, either still in a goroutine or
 finished, and a finished one is counted under `failed` if its download
 failed and under `success` (or is still being sent) if it succeeded.
 */
module Outcomes {
  import opened Pipeline

  /** A download ends the way the downloader says it does. */
  predicate Honours(e: Event, fetch: string -> Fetch)
  {
    match e
    case FinishOk(u, c, t) => fetch(u) == Fetched(c, t)
    case FinishFail(u) => fetch(u) == FetchFailed
    case _ => true
  }

  /** Every URL of the input downloads successfully. */
  predicate AllFetched(urls: seq<string>, fetch: string -> Fetch)
  {
    forall u :: u in urls ==> fetch(u).Fetched?
  }

  /** No URL of the input downloads successfully. */
  predicate NoneFetched(urls: seq<string>, fetch: string -> Fetch)
  {
    forall u :: u in urls ==> fetch(u).FetchFailed?
  }

  /** The number of positions of the input whose download fails. */
  function Failing(urls: seq<string>, fetch: string -> Fetch): (n: nat)
    ensures n <= |urls|
    decreases |urls|
  {
    if |urls| == 0 then 0
    else Failing(urls[..|urls| - 1], fetch) + (if fetch(urls[|urls| - 1]).FetchFailed? then 1 else 0)
  }

  /**
   The URLs handed over so far are exactly those still in a goroutine plus
   the finished ones, `ok` holding the successful and `fail` the failed
   downloads; `failed` counts `fail`, and `success` counts the contents of
   `ok` the persister has received.
   */
  ghost predicate Accounted(s: State, urls: seq<string>, fetch: string -> Fetch, ok: multiset<string>, fail: multiset<string>)
  {
    && s.stats.total <= |urls|
    && multiset(urls[..s.stats.total]) == s.waiting + s.downloading + ok + fail
    && |fail| == s.stats.failed
    && |ok| == s.stats.success + |s.sending|
    && (forall u :: u in fail ==> fetch(u).FetchFailed?)
    && (forall u :: u in ok ==> fetch(u).Fetched?)
  }

  lemma InitAccounted(capacity: nat, urls: seq<string>, fetch: string -> Fetch)
    ensures Accounted(Init(capacity, urls), urls, fetch, multiset{}, multiset{})
  {
    assert urls[..0] == [];
  }

  lemma ReceiveAccounted(s: State, urls: seq<string>, fetch: string -> Fetch, ok: multiset<string>, fail: multiset<string>)
    requires Consistent(s, urls) && Enabled(s, Receive) && Accounted(s, urls, fetch, ok, fail)
    ensures Accounted(Next(s, Receive), urls, fetch, ok, fail)
  {
    var t := s.stats.total;
    assert s.pending[0] == urls[t];
    assert urls[..t + 1] == urls[..t] + [urls[t]];
  }

  lemma AcquireAccounted(s: State, u: string, urls: seq<string>, fetch: string -> Fetch, ok: multiset<string>, fail: multiset<string>)
    requires Enabled(s, Acquire(u)) && Accounted(s, urls, fetch, ok, fail)
    ensures Accounted(Next(s, Acquire(u)), urls, fetch, ok, fail)
  {
    assert s.waiting == (s.waiting - multiset{u}) + multiset{u};
  }

  lemma FailAccounted(s: State, u: string, urls: seq<string>, fetch: string -> Fetch, ok: multiset<string>, fail: multiset<string>)
    requires Enabled(s, FinishFail(u)) && fetch(u).FetchFailed? && Accounted(s, urls, fetch, ok, fail)
    ensures Accounted(Next(s, FinishFail(u)), urls, fetch, ok, fail + multiset{u})
  {
    assert s.downloading == (s.downloading - multiset{u}) + multiset{u};
  }

  lemma OkAccounted(s: State, u: string, c: string, t: nat, urls: seq<string>, fetch: string -> Fetch, ok: multiset<string>, fail: multiset<string>)
    requires Enabled(s, FinishOk(u, c, t)) && fetch(u).Fetched? && Accounted(s, urls, fetch, ok, fail)
    ensures Accounted(Next(s, FinishOk(u, c, t)), urls, fetch, ok + multiset{u}, fail)
  {
    assert s.downloading == (s.downloading - multiset{u}) + multiset{u};
  }

  lemma PersistAccounted(s: State, c: string, written: bool, urls: seq<string>, fetch: string -> Fetch, ok: multiset<string>, fail: multiset<string>)
    requires Enabled(s, Persist(c, written)) && Accounted(s, urls, fetch, ok, fail)
    ensures Accounted(Next(s, Persist(c, written)), urls, fetch, ok, fail)
  {
    RemoveOne(s.sending, c);
  }

  /**
   Every event that ends a download the way the downloader reports keeps
   the finished downloads accounted for; the finished sets grow by the URL
   whose download ended.
   */
  lemma AccountedStep(s: State, e: Event, urls: seq<string>, fetch: string -> Fetch, ok: multiset<string>, fail: multiset<string>)
    returns (ok': multiset<string>, fail': multiset<string>)
    requires Consistent(s, urls) && Enabled(s, e) && Honours(e, fetch) && Accounted(s, urls, fetch, ok, fail)
    ensures Accounted(Next(s, e), urls, fetch, ok', fail')
  {
    ok', fail' := ok, fail;
    match e
    case Receive => ReceiveAccounted(s, urls, fetch, ok, fail);
    case Acquire(u) => AcquireAccounted(s, u, urls, fetch, ok, fail);
    case FinishFail(u) =>
      FailAccounted(s, u, urls, fetch, ok, fail);
      fail' := fail + multiset{u};
    case FinishOk(u, c, t) =>
      OkAccounted(s, u, c, t, urls, fetch, ok, fail);
      ok' := ok + multiset{u};
    case Persist(c, w) => PersistAccounted(s, c, w, urls, fetch, ok, fail);
  }

  lemma CancelOne<T>(a: multiset<T>, b: multiset<T>, x: T)
    requires a + multiset{x} == b + multiset{x}
    ensures a == b
  {
    assert a == (a + multiset{x}) - multiset{x};
    assert b == (b + multiset{x}) - multiset{x};
  }

  lemma TakeOut<T>(m: multiset<T>, a: multiset<T>, b: multiset<T>, x: T)
    requires m + multiset{x} == a + b && x in b
    ensures m == a + (b - multiset{x})
  {
    var b' := b - multiset{x};
    assert b == b' + multiset{x};
    assert a + b == (a + b') + multiset{x};
    CancelOne(m, a + b', x);
  }

  lemma MultisetLast<T>(xs: seq<T>)
    requires |xs| > 0
    ensures multiset(xs) == multiset(xs[..|xs| - 1]) + multiset{xs[|xs| - 1]}
  {
    assert xs == xs[..|xs| - 1] + [xs[|xs| - 1]];
  }

  /** Taking the last URL out of a split of the input by download outcome. */
  lemma PeelLast(urls: seq<string>, fetch: string -> Fetch, ok: multiset<string>, fail: multiset<string>)
    returns (ok': multiset<string>, fail': multiset<string>)
    requires |urls| > 0 && multiset(urls) == ok + fail
    requires forall u :: u in fail ==> fetch(u).FetchFailed?
    requires forall u :: u in ok ==> fetch(u).Fetched?
    ensures multiset(urls[..|urls| - 1]) == ok' + fail'
    ensures ok' <= ok && fail' <= fail
    ensures |fail| == |fail'| + (if fetch(urls[|urls| - 1]).FetchFailed? then 1 else 0)
  {
    var init, x := urls[..|urls| - 1], urls[|urls| - 1];
    MultisetLast(urls);
    if fetch(x).FetchFailed? {
      assert x in multiset(urls);
      assert x !in ok;
      TakeOut(multiset(init), ok, fail, x);
      ok', fail' := ok, fail - multiset{x};
    } else {
      assert x in multiset(urls);
      assert x !in fail;
      TakeOut(multiset(init), fail, ok, x);
      ok', fail' := ok - multiset{x}, fail;
    }
  }

  /** Splitting the input by download outcome: the failed part has `Failing` elements. */
  lemma {:induction false} SplitCount(urls: seq<string>, fetch: string -> Fetch, ok: multiset<string>, fail: multiset<string>)
    requires multiset(urls) == ok + fail
    requires forall u :: u in fail ==> fetch(u).FetchFailed?
    requires forall u :: u in ok ==> fetch(u).Fetched?
    ensures |fail| == Failing(urls, fetch)
  {
    if |urls| > 0 {
      var ok', fail' := PeelLast(urls, fetch, ok, fail);
      SplitCount(urls[..|urls| - 1], fetch, ok', fail');
    }
  }

  /**
   Once drained, `failed` is the number of input URLs whose download fails
   and `success` the number of the others.
   */
  lemma DrainedOutcomes(s: State, urls: seq<string>, fetch: string -> Fetch, ok: multiset<string>, fail: multiset<string>)
    requires Consistent(s, urls) && Drained(s) && Accounted(s, urls, fetch, ok, fail)
    ensures s.stats.failed == Failing(urls, fetch)
    ensures s.stats.success == |urls| - Failing(urls, fetch)
  {
    assert urls[..s.stats.total] == urls;
    SplitCount(urls, fetch, ok, fail);
  }

  /** Finished downloads are of URLs of the input. */
  lemma FinishedFromInput(s: State, urls: seq<string>, fetch: string -> Fetch, ok: multiset<string>, fail: multiset<string>, u: string)
    requires Accounted(s, urls, fetch, ok, fail) && (u in ok || u in fail)
    ensures u in urls
  {
    assert u in multiset(urls[..s.stats.total]);
  }

  /**
   At any event boundary: if every download succeeds nothing has failed, and
   if none does nothing has been handed to the persister or is being sent.
   */
  lemma OutcomeExtremes(s: State, urls: seq<string>, fetch: string -> Fetch, ok: multiset<string>, fail: multiset<string>)
    requires Accounted(s, urls, fetch, ok, fail)
    ensures AllFetched(urls, fetch) ==> s.stats.failed == 0
    ensures NoneFetched(urls, fetch) ==> s.stats.success == 0 && |s.sending| == 0
  {
    if AllFetched(urls, fetch) && |fail| > 0 {
      var u :| u in fail;
      FinishedFromInput(s, urls, fetch, ok, fail, u);
      assert false;
    }
    if NoneFetched(urls, fetch) && |ok| > 0 {
      var u :| u in ok;
      FinishedFromInput(s, urls, fetch, ok, fail, u);
      assert false;
    }
  }
}

=== FILE: pipeline.dfy ===
/**
 The download and persist stages of `main` as a sequential state machine.

 The URL channel hands URLs over one at a time, in the order the reader
 emitted them. For each one `downloadURLs` counts it in `total` and spawns a
 goroutine at once; that goroutine then waits for a slot of the semaphore
 (a buffered channel of `capacity` slots), downloads, and either counts a
 failure or adds the elapsed time and sends the content on the unbuffered
 content channel. Its deferred release of the slot runs only after that send
 completes, so a successful download keeps its slot until the persister has
 received its content. The persister counts every content it receives as a
 success before it tries to store it.

 Every goroutine interleaving is a sequence of the events below; the counters
 change per event, so the order of events between goroutines does not matter
 to them. Each event is taken as one atomic step, and the states of the model
 are the moments between events. Three pairs of program steps are folded
 into one event each:
 - `Persist`: the persister's receive and its increment of `success`;
 - `Persist`: the same receive, which completes the sender's send, and that
   sender's deferred release of its slot;
 - `FinishFail`: a failed goroutine's increment of `failed` and its deferred
   release of its slot.
 Between the two halves of a pair the program's state is not one of the
 model's. There is a single persister, so `success` lags its event by at
 most one. Up to `capacity` goroutines can sit between a counted failure or a
 completed send and their release, so the semaphore can hold up to
 `capacity` tokens while `Slots` of the model counts fewer of them. The
 content channel is closed right after the last goroutine's `Done` on the
 wait group, which runs before that goroutine's release and possibly before
 the persister's last increment. So the accounting below is stated at event
 boundaries, and `main` reads the counters only after the persister has
 finished, which is such a boundary.
 */
module Pipeline {
  import opened Wrappers

  /** Outcome of one download, as the downloader and the clock report it. */
  datatype Fetch = Fetched(content: string, elapsedMs: nat) | FetchFailed

  /** The shared counters: URLs received, contents handed to the persister, failed downloads, summed latency. */
  datatype Stats = Stats(total: nat, success: nat, failed: nat, durationMs: nat)

  datatype State = State(
    capacity: nat,              // slots of the semaphore
    pending: seq<string>,       // URLs the reader has yet to hand over, in file order
    waiting: multiset<string>,  // spawned goroutines not yet holding a slot
    downloading: multiset<string>, // goroutines holding a slot, download under way
    sending: multiset<string>,  // goroutines holding a slot, blocked sending their content
    stored: seq<string>,        // contents the persister wrote, in the order received
    persistErrors: nat,         // contents the persister failed to write
    stats: Stats)

  /** One step of one goroutine. */
  datatype Event =
    | Receive                                     // downloadURLs takes the next URL and spawns its goroutine
    | Acquire(url: string)                        // a waiting goroutine obtains a slot
    | FinishFail(url: string)                     // its download failed; the slot is released
    | FinishOk(url: string, content: string, elapsedMs: nat) // its download succeeded; it starts sending
    | Persist(content: string, written: bool)     // the persister receives a content; its sender releases the slot

  /** The state before any URL is handed over. */
  function Init(capacity: nat, urls: seq<string>): State
  {
    State(capacity, urls, multiset{}, multiset{}, multiset{}, [], 0, Stats(0, 0, 0, 0))
  }

  /** Slots of the semaphore currently held. */
  function Slots(s: State): nat
  {
    |s.downloading| + |s.sending|
  }

  /** Whether the event can happen now, or the goroutine it belongs to is blocked. */
  predicate Enabled(s: State, e: Event)
  {
    match e
    case Receive => |s.pending| > 0
    case Acquire(u) => u in s.waiting && Slots(s) < s.capacity
    case FinishFail(u) => u in s.downloading
    case FinishOk(u, _, _) => u in s.downloading
    case Persist(c, _) => c in s.sending
  }

  /** The state after an enabled event. */
  function Next(s: State, e: Event): State
    requires Enabled(s, e)
  {
    match e
    case Receive =>
      s.(pending := s.pending[1..],
         waiting := s.waiting + multiset{s.pending[0]},
         stats := s.stats.(total := s.stats.total + 1))
    case Acquire(u) =>
      s.(waiting := s.waiting - multiset{u},
         downloading := s.downloading + multiset{u})
    case FinishFail(u) =>
      s.(downloading := s.downloading - multiset{u},
         stats := s.stats.(failed := s.stats.failed + 1))
    case FinishOk(u, c, t) =>
      s.(downloading := s.downloading - multiset{u},
         sending := s.sending + multiset{c},
         stats := s.stats.(durationMs := s.stats.durationMs + t))
    case Persist(c, written) =>
      s.(sending := s.sending - multiset{c},
         stored := if written then s.stored + [c] else s.stored,
         persistErrors := if written then s.persistErrors else s.persistErrors + 1,
         stats := s.stats.(success := s.stats.success + 1))
  }

  /** The state a sequence of events leads to from `s`, or None if one of them is blocked. */
  function Run(s: State, trace: seq<Event>): Option<State>
    decreases |trace|
  {
    if |trace| == 0 then Some(s)
    else
      match Run(s, trace[..|trace| - 1])
      case None => None
      case Some(t) =>
        var e := trace[|trace| - 1];
        if Enabled(t, e) then Some(Next(t, e)) else None
  }

  /** `s` is reachable from the start of a run over `urls` with a gate of `capacity` slots. */
  ghost predicate Reachable(capacity: nat, urls: seq<string>, s: State)
  {
    exists trace :: Run(Init(capacity, urls), trace) == Some(s)
  }

  /**
   The URL channel is drained, every spawned goroutine has finished and the
   persister has counted every content sent to it: the point where the
   persister's wait group is done and `main` goes on to read the counters.
   */
  predicate Drained(s: State)
  {
    |s.pending| == 0 && |s.waiting| == 0 && |s.downloading| == 0 && |s.sending| == 0
  }

  /**
   The accounting that holds between any two events: the gate is never over-full,
   the URLs handed over are a prefix of the input and each is counted once in
   `total`, and every counted URL is either still in a goroutine or has been
   counted exactly once as a success or a failure.
   */
  predicate Consistent(s: State, urls: seq<string>)
  {
    && Slots(s) <= s.capacity
    && |s.pending| <= |urls|
    && s.pending == urls[|urls| - |s.pending|..]
    && s.stats.total == |urls| - |s.pending|
    && s.stats.total == s.stats.success + s.stats.failed + |s.waiting| + Slots(s)
    && s.stats.success == |s.stored| + s.persistErrors
  }

  /** Every event keeps the accounting consistent. */
  lemma NextConsistent(s: State, e: Event, urls: seq<string>)
    requires Consistent(s, urls) && Enabled(s, e)
    ensures Consistent(Next(s, e), urls)
  {
    match e
    case Receive =>
      assert s.pending[1..] == urls[|urls| - |s.pending| + 1..];
    case Acquire(u) =>
      RemoveOne(s.waiting, u);
    case FinishFail(u) =>
      RemoveOne(s.downloading, u);
    case FinishOk(u, c, t) =>
      RemoveOne(s.downloading, u);
    case Persist(c, written) =>
      RemoveOne(s.sending, c);
  }

  /** Taking one occurrence out of a multiset that holds it. */
  lemma RemoveOne<T>(m: multiset<T>, x: T)
    requires x in m
    ensures |m - multiset{x}| == |m| - 1
  {
    assert m == (m - multiset{x}) + multiset{x};
  }

  /** Every state a run reaches is consistent. */
  lemma {:induction false} RunConsistent(capacity: nat, urls: seq<string>, trace: seq<Event>)
    requires Run(Init(capacity, urls), trace).Some?
    ensures Consistent(Run(Init(capacity, urls), trace).value, urls)
    decreases |trace|
  {
    if |trace| > 0 {
      var prefix := trace[..|trace| - 1];
      RunConsistent(capacity, urls, prefix);
      NextConsistent(Run(Init(capacity, urls), prefix).value, trace[|trace| - 1], urls);
    } else {
      assert urls[|urls| - |urls|..] == urls;
    }
  }

  /** The number of slots held never exceeds the gate's capacity. */
  lemma GateBound(capacity: nat, urls: seq<string>, s: State)
    requires Reachable(capacity, urls, s)
    ensures Slots(s) <= capacity
    ensures s.stats.success + s.stats.failed <= s.stats.total
  {
    var trace :| Run(Init(capacity, urls), trace) == Some(s);
    RunConsistent(capacity, urls, trace);
    CapacityFixed(capacity, urls, trace);
  }

  /** No event changes the gate's capacity. */
  lemma {:induction false} CapacityFixed(capacity: nat, urls: seq<string>, trace: seq<Event>)
    requires Run(Init(capacity, urls), trace).Some?
    ensures Run(Init(capacity, urls), trace).value.capacity == capacity
    decreases |trace|
  {
    if |trace| > 0 {
      CapacityFixed(capacity, urls, trace[..|trace| - 1]);
    }
  }

  /**
   Once drained (after the persister's last increment, not merely when the
   content channel closes), every URL of the input has been counted in
   `total`, and each has been counted exactly once as a success or a failure.
   */
  lemma DrainedBalances(capacity: nat, urls: seq<string>, s: State)
    requires Reachable(capacity, urls, s) && Drained(s)
    ensures s.stats.total == |urls|
    ensures s.stats.success + s.stats.failed == s.stats.total
  {
    var trace :| Run(Init(capacity, urls), trace) == Some(s);
    RunConsistent(capacity, urls, trace);
  }

  /**
   With a gate of capacity 0 no goroutine ever obtains a slot, so nothing is
   downloaded or counted as a success or failure, and a non-empty input can
   never drain: the run stalls.
   */
  lemma {:induction false} ZeroCapacityStalls(urls: seq<string>, trace: seq<Event>)
    requires Run(Init(0, urls), trace).Some?
    ensures var s := Run(Init(0, urls), trace).value;
      && Slots(s) == 0 && s.stats.success == 0 && s.stats.failed == 0
      && (|urls| > 0 ==> !Drained(s))
    decreases |trace|
  {
    RunConsistent(0, urls, trace);
    CapacityFixed(0, urls, trace);
    if |trace| > 0 {
      ZeroCapacityStalls(urls, trace[..|trace| - 1]);
    }
  }

  // ---- Counting events ----

  predicate IsReceive(e: Event) { e.Receive? }
  predicate IsFailure(e: Event) { e.FinishFail? }
  predicate IsHandoff(e: Event) { e.Persist? }

  /** How many events of the trace satisfy `p`. */
  function Count(trace: seq<Event>, p: Event -> bool): nat
  {
    if |trace| == 0 then 0
    else Count(trace[..|trace| - 1], p) + (if p(trace[|trace| - 1]) then 1 else 0)
  }

  /** The time added by the successful downloads of the trace. */
  function Elapsed(trace: seq<Event>): nat
  {
    if |trace| == 0 then 0
    else
      var e := trace[|trace| - 1];
      Elapsed(trace[..|trace| - 1]) + (if e.FinishOk? then e.elapsedMs else 0)
  }

  /**
   Each counter moves only on its own event: `total` counts the URLs
   received, `failed` the failed downloads, `success` the contents handed to
   the persister (whether or not writing them worked), and `durationMs` sums
   the elapsed time of the successful downloads alone.
   */
  lemma {:induction false} CountersCountEvents(capacity: nat, urls: seq<string>, trace: seq<Event>)
    requires Run(Init(capacity, urls), trace).Some?
    ensures var s := Run(Init(capacity, urls), trace).value;
      && s.stats.total == Count(trace, IsReceive)
      && s.stats.failed == Count(trace, IsFailure)
      && s.stats.success == Count(trace, IsHandoff)
      && s.stats.durationMs == Elapsed(trace)
    decreases |trace|
  {
    if |trace| > 0 {
      var prefix, e := trace[..|trace| - 1], trace[|trace| - 1];
      RunLast(Init(capacity, urls), trace);
      CountersCountEvents(capacity, urls, prefix);
      NextStats(Run(Init(capacity, urls), prefix).value, e);
    }
  }

  /** A run that gets through its last event got through the events before it. */
  lemma RunLast(s0: State, trace: seq<Event>)
    requires |trace| > 0 && Run(s0, trace).Some?
    ensures Run(s0, trace[..|trace| - 1]).Some?
    ensures Enabled(Run(s0, trace[..|trace| - 1]).value, trace[|trace| - 1])
    ensures Run(s0, trace) == Some(Next(Run(s0, trace[..|trace| - 1]).value, trace[|trace| - 1]))
  {
  }

  /** How one event moves the counters. */
  lemma NextStats(s: State, e: Event)
    requires Enabled(s, e)
    ensures Next(s, e).stats.total == s.stats.total + (if IsReceive(e) then 1 else 0)
    ensures Next(s, e).stats.failed == s.stats.failed + (if IsFailure(e) then 1 else 0)
    ensures Next(s, e).stats.success == s.stats.success + (if IsHandoff(e) then 1 else 0)
    ensures Next(s, e).stats.durationMs == s.stats.durationMs + (if e.FinishOk? then e.elapsedMs else 0)
  {
  }

  // ---- What each kind of event does ----

  /**
   Receiving a URL counts it once in `total` and spawns its goroutine, which
   waits for a slot: the receiving loop itself never waits on the gate.
   */
  lemma ReceiveSpawns(s: State)
    requires Enabled(s, Receive)
    ensures var s' := Next(s, Receive);
      && s'.stats == s.stats.(total := s.stats.total + 1)
      && s'.waiting == s.waiting + multiset{s.pending[0]}
      && Slots(s') == Slots(s)
      && s'.pending == s.pending[1..]
  {
  }

  /**
   A failed download counts one failure, adds no time and forwards nothing:
   no content is sent and the slot is released.
   */
  lemma FailureForwardsNothing(s: State, u: string)
    requires Enabled(s, FinishFail(u))
    ensures var s' := Next(s, FinishFail(u));
      && s'.stats == s.stats.(failed := s.stats.failed + 1)
      && s'.sending == s.sending
      && Slots(s') == Slots(s) - 1
  {
    var s' := Next(s, FinishFail(u));
    assert s.downloading == s'.downloading + multiset{u};
  }

  /**
   A successful download adds its elapsed time, leaves `failed` alone and
   puts its content on the content channel exactly once, keeping its slot.
   */
  lemma SuccessForwardsOnce(s: State, u: string, c: string, t: nat)
    requires Enabled(s, FinishOk(u, c, t))
    ensures var s' := Next(s, FinishOk(u, c, t));
      && s'.stats == s.stats.(durationMs := s.stats.durationMs + t)
      && s'.sending[c] == s.sending[c] + 1
      && Slots(s') == Slots(s)
  {
    var s' := Next(s, FinishOk(u, c, t));
    assert s.downloading == (s.downloading - multiset{u}) + multiset{u};
  }

  /**
   The persister counts a success as soon as it receives a content, before
   writing it; a failed write is not taken back out of `success`.
   */
  lemma HandoffCountsSuccess(s: State, c: string, written: bool)
    requires Enabled(s, Persist(c, written))
    ensures var s' := Next(s, Persist(c, written));
      && s'.stats == s.stats.(success := s.stats.success + 1)
      && (written <==> s'.stored == s.stored + [c])
      && (!written <==> s'.persistErrors == s.persistErrors + 1)
      && Slots(s') == Slots(s) - 1
  {
    var s' := Next(s, Persist(c, written));
    assert s.sending == s'.sending + multiset{c};
    if !written {
      assert |s'.stored| != |s.stored + [c]|;
    }
  }
}

=== FILE: program.dfy ===
/**
 `main` end to end: check the flags, read the URL items of the file, run the
 download and persist stages over them, and report the counters. Any error
 of the flags or of the reader ends the process through a fatal log line.
 With a gate of 0 slots and at least one URL the persister never finishes,
 so `main` waits for an interrupt and the normal report is never reached.
 */
module Program {
  import opened Wrappers
  import opened Config
  import opened CsvReader
  import opened Pipeline
  import opened Scheduler
  import opened Outcomes

  /** Why the counters are not reported at the end of a normal run. */
  datatype NoReport =
    | BadFlags(flag: FlagError)
    | Unreadable(cause: CsvReader.ReadError)
      /** The number of URLs whose goroutines wait forever on the gate. */
    | Stalled(blocked: nat)

  method RunProgram(flags: Flags, file: File, fetch: string -> Fetch, write: string -> bool)
    returns (report: Result<Stats, NoReport>)
    ensures Validate(flags).Err? ==> report == Err(BadFlags(Validate(flags).error))
    ensures Validate(flags).Ok? && file.Unopenable? ==> report == Err(Unreadable(OpenFailed))
    ensures Validate(flags).Ok? && file.Opened? && file.scanFails ==> report == Err(Unreadable(ScanFailed))
    ensures Validate(flags).Ok? && file.Opened? && !file.scanFails && flags.maxDownloadConcurrency == 0 && |Emitted(file.lines)| > 0 ==> report == Err(Stalled(|Emitted(file.lines)|))
    ensures report.Ok? <==> Validate(flags).Ok? && file.Opened? && !file.scanFails && (flags.maxDownloadConcurrency > 0 || |Emitted(file.lines)| == 0)
    ensures report.Ok? ==> report.value.total == |Emitted(file.lines)|
    ensures report.Ok? ==> report.value.success + report.value.failed == report.value.total
    ensures report.Ok? ==> report.value.failed == Failing(Emitted(file.lines), fetch)
    ensures report.Ok? ==> report.value.success == |Emitted(file.lines)| - Failing(Emitted(file.lines), fetch)
  {
    var gate := Validate(flags);
    if gate.Err? {
      return Err(BadFlags(gate.error));
    }
    var urls, readErr := ReadLines(file);
    if readErr.Some? {
      return Err(Unreadable(readErr.value));
    }
    var s, trace := RunPipeline(gate.value, urls, fetch, write);
    if gate.value == 0 && |urls| > 0 {
      return Err(Stalled(|s.waiting|));
    }
    return Ok(s.stats);
  }
}

=== FILE: scheduler.dfy ===
/**
 One complete schedule of the goroutines of `main`, run to the point where
 none of them can move: the URL loop receives whenever a URL is ready,
 waiting goroutines take free slots, downloads finish with the outcome the
 downloader reports, and the persister takes whatever content is being sent.
 */
module Scheduler {
  import opened Wrappers
  import opened Pipeline
  import opened Outcomes

  /** Falls with every event: each one moves some goroutine one stage further on. */
  function Weight(s: State): nat
  {
    4 * |s.pending| + 3 * |s.waiting| + 2 * |s.downloading| + |s.sending|
  }

  /** Every goroutine still alive holds a URL of the input. */
  ghost predicate FromInput(s: State, urls: seq<string>)
  {
    && (forall u :: u in s.waiting ==> u in urls)
    && (forall u :: u in s.downloading ==> u in urls)
  }

  /**
   The next event of the schedule, or None when no goroutine can move: the
   URL loop first, then a free slot, then a download, then the persister.
   */
  method ChooseEvent(s: State, fetch: string -> Fetch, write: string -> bool) returns (e: Option<Event>)
    ensures e.Some? ==> Enabled(s, e.value) && Honours(e.value, fetch)
    ensures e.Some? && e.value.Acquire? ==> Slots(s) < s.capacity
    ensures e.None? ==> forall ev :: !Enabled(s, ev)
    ensures e.None? ==> |s.pending| == 0 && |s.downloading| == 0 && |s.sending| == 0
    ensures e.None? && 0 < s.capacity && Slots(s) == 0 ==> |s.waiting| == 0
  {
    if |s.pending| > 0 {
      return Some(Receive);
    } else if |s.waiting| > 0 && Slots(s) < s.capacity {
      var u :| u in s.waiting;
      return Some(Acquire(u));
    } else if |s.downloading| > 0 {
      var u :| u in s.downloading;
      match fetch(u)
      case Fetched(c, t) => return Some(FinishOk(u, c, t));
      case FetchFailed => return Some(FinishFail(u));
    } else if |s.sending| > 0 {
      var c :| c in s.sending;
      return Some(Persist(c, write(c)));
    }
    return None;
  }

  /** An event of the schedule lowers the weight and keeps the goroutines' URLs from the input. */
  lemma StepFacts(s: State, e: Event, urls: seq<string>, fetch: string -> Fetch)
    requires Consistent(s, urls) && FromInput(s, urls) && Enabled(s, e) && Honours(e, fetch)
    ensures Weight(Next(s, e)) < Weight(s)
    ensures FromInput(Next(s, e), urls)
    ensures AllFetched(urls, fetch) ==> Next(s, e).stats.failed == s.stats.failed
    ensures NoneFetched(urls, fetch) && |s.sending| == 0 ==> Next(s, e).stats.success == s.stats.success && |Next(s, e).sending| == 0
  {
    match e
    case Receive =>
      assert s.pending[0] == urls[|urls| - |s.pending|];
    case Acquire(u) => RemoveOne(s.waiting, u);
    case FinishFail(u) => RemoveOne(s.downloading, u);
    case FinishOk(u, _, _) => RemoveOne(s.downloading, u);
    case Persist(c, _) => RemoveOne(s.sending, c);
  }

  /** Running one more enabled event. */
  lemma RunSnoc(s0: State, trace: seq<Event>, e: Event)
    requires Run(s0, trace).Some? && Enabled(Run(s0, trace).value, e)
    ensures Run(s0, trace + [e]) == Some(Next(Run(s0, trace).value, e))
  {
    assert (trace + [e])[..|trace|] == trace;
  }

  /**
   What holds after every step of the schedule: the events so far form a
   run that ends the downloads as `fetch` reports, the accounting holds, and
   the finished downloads are split into `ok` and `fail` by outcome.
   */
  ghost predicate Progress(capacity: nat, urls: seq<string>, fetch: string -> Fetch, s: State, trace: seq<Event>, ok: multiset<string>, fail: multiset<string>)
  {
    && Run(Init(capacity, urls), trace) == Some(s)
    && (forall i :: 0 <= i < |trace| ==> Honours(trace[i], fetch))
    && Consistent(s, urls) && s.capacity == capacity
    && FromInput(s, urls)
    && Accounted(s, urls, fetch, ok, fail)
  }

  lemma ProgressInit(capacity: nat, urls: seq<string>, fetch: string -> Fetch)
    ensures Progress(capacity, urls, fetch, Init(capacity, urls), [], multiset{}, multiset{})
  {
    assert urls[|urls| - |urls|..] == urls;
    InitAccounted(capacity, urls, fetch);
  }

  /** One more event of the schedule keeps `Progress` and lowers the weight. */
  lemma ProgressStep(capacity: nat, urls: seq<string>, fetch: string -> Fetch, s: State, trace: seq<Event>, ok: multiset<string>, fail: multiset<string>, e: Event)
    returns (ok': multiset<string>, fail': multiset<string>)
    requires Progress(capacity, urls, fetch, s, trace, ok, fail) && Enabled(s, e) && Honours(e, fetch)
    ensures Progress(capacity, urls, fetch, Next(s, e), trace + [e], ok', fail')
    ensures Weight(Next(s, e)) < Weight(s)
  {
    NextConsistent(s, e, urls);
    StepFacts(s, e, urls, fetch);
    RunSnoc(Init(capacity, urls), trace, e);
    ok', fail' := AccountedStep(s, e, urls, fetch, ok, fail);
    assert forall i :: 0 <= i < |trace| + 1 ==> (trace + [e])[i] == if i < |trace| then trace[i] else e;
  }

  /** Where the schedule stops, the counters split the input by download outcome. */
  lemma ProgressHalted(capacity: nat, urls: seq<string>, fetch: string -> Fetch, s: State, trace: seq<Event>, ok: multiset<string>, fail: multiset<string>)
    requires Progress(capacity, urls, fetch, s, trace, ok, fail)
    requires |s.pending| == 0 && |s.downloading| == 0 && |s.sending| == 0
    requires 0 < capacity ==> |s.waiting| == 0
    ensures 0 < capacity ==> s.stats.failed == Failing(urls, fetch) && s.stats.success == |urls| - Failing(urls, fetch)
    ensures AllFetched(urls, fetch) ==> s.stats.failed == 0
    ensures NoneFetched(urls, fetch) ==> s.stats.success == 0
  {
    OutcomeExtremes(s, urls, fetch, ok, fail);
    if 0 < capacity {
      DrainedOutcomes(s, urls, fetch, ok, fail);
    }
  }

  /**
   Steps the schedule from the initial state until no goroutine can move,
   keeping the accounting and the outcome facts of the downloads on the way.
   */
  method Drive(capacity: nat, urls: seq<string>, fetch: string -> Fetch, write: string -> bool)
    returns (s: State, trace: seq<Event>)
    ensures Run(Init(capacity, urls), trace) == Some(s)
    ensures forall i :: 0 <= i < |trace| ==> Honours(trace[i], fetch)
    ensures Consistent(s, urls) && s.capacity == capacity
    ensures forall e :: !Enabled(s, e)
    ensures |s.pending| == 0 && |s.downloading| == 0 && |s.sending| == 0
    ensures 0 < capacity ==> |s.waiting| == 0
    ensures 0 < capacity ==> s.stats.failed == Failing(urls, fetch) && s.stats.success == |urls| - Failing(urls, fetch)
    ensures AllFetched(urls, fetch) ==> s.stats.failed == 0
    ensures NoneFetched(urls, fetch) ==> s.stats.success == 0
  {
    ghost var ok: multiset<string>, fail: multiset<string> := multiset{}, multiset{};
    s, trace := Init(capacity, urls), [];
    ProgressInit(capacity, urls, fetch);
    while true
      invariant Progress(capacity, urls, fetch, s, trace, ok, fail)
      decreases Weight(s)
    {
      var next := ChooseEvent(s, fetch, write);
      if next.None? {
        ProgressHalted(capacity, urls, fetch, s, trace, ok, fail);
        return;
      }
      ok, fail := ProgressStep(capacity, urls, fetch, s, trace, ok, fail, next.value);
      s, trace := Next(s, next.value), trace + [next.value];
    }
  }

  /**
   Runs the download and persist stages over `urls` until no goroutine can
   move, with `fetch` standing for the downloader and the clock and `write`
   for the persister's file write. With at least one slot the run drains and
   every URL is accounted for; with none, every URL stays waiting on the gate.
   */
  method RunPipeline(capacity: nat, urls: seq<string>, fetch: string -> Fetch, write: string -> bool)
    returns (s: State, trace: seq<Event>)
    ensures Run(Init(capacity, urls), trace) == Some(s)
    ensures forall i :: 0 <= i < |trace| ==> Honours(trace[i], fetch)
    ensures forall e :: !Enabled(s, e)
    ensures capacity > 0 ==> Drained(s)
    ensures s.stats.total == |urls|
    ensures capacity > 0 ==> s.stats.success + s.stats.failed == |urls|
    ensures capacity > 0 ==> s.stats.failed == Failing(urls, fetch) && s.stats.success == |urls| - Failing(urls, fetch)
    ensures capacity > 0 && AllFetched(urls, fetch) ==> s.stats.success == |urls| && s.stats.failed == 0
    ensures capacity > 0 && NoneFetched(urls, fetch) ==> s.stats.success == 0 && s.stats.failed == |urls|
    ensures capacity == 0 ==> s.stats.success == 0 && s.stats.failed == 0 && |s.waiting| == |urls|
  {
    s, trace := Drive(capacity, urls, fetch, write);
    if capacity == 0 {
      ZeroCapacityStalls(urls, trace);
    }
  }
}

=== FILE: whitespace.dfy ===
/**
 Go's `strings.TrimSpace` on a string of runes: it removes every leading and
 trailing rune for which `unicode.IsSpace` holds and keeps everything between.
 */
module Whitespace {

  /** `unicode.IsSpace`: the Latin-1 spaces plus the Unicode White_Space code points. */
  predicate IsSpace(c: char)
  {
    || c == ' ' || c == '\t' || c == '\n' || c == '\r'
    || c == '\U{000B}' || c == '\U{000C}' || c == '\U{0085}' || c == '\U{00A0}'
    || c == '\U{1680}' || ('\U{2000}' <= c <= '\U{200A}')
    || c == '\U{2028}' || c == '\U{2029}' || c == '\U{202F}' || c == '\U{205F}'
    || c == '\U{3000}'
  }

  /** Every rune of `s` is whitespace (vacuously true of the empty string). */
  predicate AllSpace(s: string)
  {
    forall k :: 0 <= k < |s| ==> IsSpace(s[k])
  }

  /** `t` neither starts nor ends with whitespace. */
  predicate Trimmed(t: string)
  {
    |t| == 0 || (!IsSpace(t[0]) && !IsSpace(t[|t| - 1]))
  }

  /** Drops the leading whitespace. */
  function TrimLeft(s: string): string
  {
    if |s| > 0 && IsSpace(s[0]) then TrimLeft(s[1..]) else s
  }

  /** Drops the trailing whitespace. */
  function TrimRight(s: string): string
  {
    if |s| > 0 && IsSpace(s[|s| - 1]) then TrimRight(s[..|s| - 1]) else s
  }

  /** TrimLeft keeps a suffix of `s` and removes only whitespace, all of it. */
  lemma {:induction false} TrimLeftSpec(s: string)
    ensures var r := TrimLeft(s);
      && |r| <= |s| && r == s[|s| - |r|..]
      && (forall k :: 0 <= k < |s| - |r| ==> IsSpace(s[k]))
      && (|r| == 0 || !IsSpace(r[0]))
  {
    if |s| > 0 && IsSpace(s[0]) {
      TrimLeftSpec(s[1..]);
    }
  }

  /** TrimRight keeps a prefix of `s` and removes only whitespace, all of it. */
  lemma {:induction false} TrimRightSpec(s: string)
    ensures var r := TrimRight(s);
      && |r| <= |s| && r == s[..|r|]
      && (forall k :: |r| <= k < |s| ==> IsSpace(s[k]))
      && (|r| == 0 || !IsSpace(r[|r| - 1]))
  {
    if |s| > 0 && IsSpace(s[|s| - 1]) {
      TrimRightSpec(s[..|s| - 1]);
    }
  }

  /** `strings.TrimSpace`: no whitespace is left at either end of the result. */
  function TrimSpace(s: string): (r: string)
    ensures Trimmed(r)
  {
    TrimLeftSpec(s);
    TrimRightSpec(TrimLeft(s));
    TrimRight(TrimLeft(s))
  }

  /**
   TrimSpace(s) is the middle of `s`: what is left once the whitespace prefix
   TrimLeft removes and a whitespace suffix are cut away; it is empty exactly
   when `s` is all whitespace.
   */
  lemma TrimSpaceShape(s: string)
    ensures |TrimLeft(s)| <= |s|
    ensures var r := TrimSpace(s); var i := |s| - |TrimLeft(s)|;
      && 0 <= i && i + |r| <= |s|
      && r == s[i..i + |r|]
      && (forall k :: 0 <= k < i ==> IsSpace(s[k]))
      && (forall k :: i + |r| <= k < |s| ==> IsSpace(s[k]))
      && (|r| == 0 <==> AllSpace(s))
  {
    var l := TrimLeft(s);
    TrimLeftSpec(s);
    TrimRightSpec(l);
    var r := TrimRight(l);
    var i := |s| - |l|;
    assert s[i..i + |r|] == l[..|r|];
    forall k | i + |r| <= k < |s| ensures IsSpace(s[k]) {
      assert s[k] == l[k - i];
    }
    if |r| > 0 {
      assert s[i] == l[0];
    }
  }

  /** TrimLeft removes a whitespace prefix and stops at the first other rune. */
  lemma {:induction false} TrimLeftSkips(pre: string, rest: string)
    requires AllSpace(pre) && (|rest| == 0 || !IsSpace(rest[0]))
    ensures TrimLeft(pre + rest) == rest
  {
    if |pre| > 0 {
      assert (pre + rest)[1..] == pre[1..] + rest;
      TrimLeftSkips(pre[1..], rest);
    } else {
      assert pre + rest == rest;
    }
  }

  /** TrimRight removes a whitespace suffix and stops at the last other rune. */
  lemma {:induction false} TrimRightSkips(rest: string, post: string)
    requires AllSpace(post) && (|rest| == 0 || !IsSpace(rest[|rest| - 1]))
    ensures TrimRight(rest + post) == rest
  {
    if |post| > 0 {
      assert (rest + post)[..|rest + post| - 1] == rest + post[..|post| - 1];
      TrimRightSkips(rest, post[..|post| - 1]);
    } else {
      assert rest + post == rest;
    }
  }

  /**
   TrimSpace is determined by its description: whatever whitespace surrounds
   a trimmed middle, trimming returns exactly that middle.
   */
  lemma TrimSpaceUnique(pre: string, mid: string, post: string)
    requires AllSpace(pre) && AllSpace(post) && Trimmed(mid)
    ensures TrimSpace(pre + mid + post) == mid
  {
    if |mid| == 0 {
      assert pre + mid + post == (pre + post) + [];
      TrimLeftSkips(pre + post, []);
    } else {
      assert pre + mid + post == pre + (mid + post);
      TrimLeftSkips(pre, mid + post);
      TrimRightSkips(mid, post);
    }
  }

  /** Trimming twice is trimming once. */
  lemma TrimSpaceIdempotent(s: string)
    ensures TrimSpace(TrimSpace(s)) == TrimSpace(s)
  {
    var t := TrimSpace(s);
    assert [] + t + [] == t;
    TrimSpaceUnique([], t, []);
  }
}

=== FILE: wrappers.dfy ===
/** Failure-carrying values shared by the reader and the pipeline models. */
module Wrappers {

  /** A value that may be absent. */
  datatype Option<+T> = None | Some(value: T)

  /** A computed value or the error that prevented it. */
  datatype Result<+R, +E> = Ok(value: R) | Err(error: E)
}
